=== FILE: README.md ===
# kconnect: EKS cluster-name translation and AAD authentication, in Dafny

This project models two pieces of kconnect, the tool that turns a cluster
identifier and an identity into a working Kubernetes connection:

- the EKS discovery provider's `GetCluster` (`pkg/plugins/discovery/aws/get.go`):
  set up the provider, translate the cluster id — an Amazon Resource Name —
  into an EKS cluster name, then look the cluster up. The translation splits
  the ARN's resource section on `/` and accepts exactly two parts, returning
  the second;
- the Azure Active Directory identity provider `aad`
  (`pkg/plugins/identity/azure/aad/aad.go`): `New` and its HTTP-client check,
  `Name`, the `Authenticate` step sequence with its password-login then
  interactive-login fallback, the authority URI, the required-field
  validation, and the option table `ConfigurationItems` declares.

Two callees are modelled rather than taken as inputs: the AWS SDK's
`arn.Parse` (`Arn`, after the public ARN format) and the configuration set's
declarations (`ConfigSet`, whose rules are assumed; see "Left out").
Everything else these files call is an input to the model: the AWS SDK's
EKS calls (`setup`, `getClusterConfig`), the HTTP lookups of the Azure
identity package, the `az` command, the provider's own
`resolveConfig` (whose body is not in `aad.go`) and the configuration
package's unmarshalling. A run of
`GetCluster` or `Authenticate` returns its result together with the list of
steps it attempted, so "this step is never attempted" is a statement about
that list.

Files, one module each:

| file | module | contents |
|---|---|---|
| `results.dfy` | `Results` | `Result`, `Outcome`, `Option`, and `Cause` (an error from outside the model) |
| `strings.dfy` | `Strings` | Go's `strings.Split`, `strings.SplitN`, `strings.Join` for a one-character separator, and their round trips |
| `arn.dfy` | `Arn` | ARN parsing and printing |
| `eks_get.dfy` | `EksDiscovery` | `getClusterName` and `GetCluster` |
| `config_set.dfy` | `ConfigSet` | the configuration set operations `ConfigurationItems` uses |
| `aad.dfy` | `Aad` | the AAD provider |

ARN parsing. The source of the AWS SDK's `arn.Parse` is not among the
modelled files; `Arn.Parse` models it on the public ARN format, `arn:partition:service:region:account-id:resource`
(AWS General Reference, "Amazon Resource Name (ARN) format"). The input must
start with `arn:`, otherwise the error is an invalid prefix. It is then split
on `:` into at most six sections; fewer than six is an error. The sixth
section, the resource, is the unsplit remainder and may contain `:`.
`Arn.Parse` is proved to accept exactly the strings with that prefix and at
least five `:`. What it returns prints back to the input, and parsing a
printed well-formed ARN gives it back.

Behaviour of the code worth knowing, each stated by a member of the model:

- A cluster id must be a full ARN. An id without the `arn:` prefix, such as
  `aws:eks:us-east-1:123456789012:cluster/my-cluster`, fails with
  `ParsingArn(InvalidPrefix)` (contract of `Arn.Parse`). The same id
  with the prefix, `arn:aws:eks:us-east-1:123456789012:cluster/my-cluster`,
  yields `my-cluster`.
- Once configuration resolution has succeeded, `Authenticate` (aad.go:101-157)
  reads neither the provider's `interactive` field nor any input flag. When the
  password login fails it always falls back to the interactive `az login`
  (`Aad.AuthenticateIgnoresInteractiveHint`).
- `ErrNoExpiryTime` (aad.go:46) is declared but not used in `aad.go`. `Authenticate`
  builds the identity unconditionally once a login has succeeded.

`Name` returns the constant `"aad"`. `Aad.Authenticate` states that the identity
it builds carries that name. The configuration set (`ConfigSet`) is not in the
modelled files; its rules are assumptions, listed under "Left out".

## Model

| member | source | states |
|---|---|---|
| Strings.Split | pkg/plugins/discovery/aws/get.go:61 | `strings.Split` on `/` returns one more part than there are separators, and no part contains the separator |
| Strings.SplitJoin | pkg/plugins/discovery/aws/get.go:61 | joining the parts of a split with the separator gives back the original string |
| Strings.JoinSplit | pkg/plugins/discovery/aws/get.go:61 | splitting a join of one or more separator-free parts gives back exactly those parts |
| Strings.SplitTwo | pkg/plugins/discovery/aws/get.go:61 | `a/b` with separator-free `a` and `b` splits into exactly `[a, b]` |
| Strings.SplitN | pkg/plugins/discovery/aws/get.go:56 | `SplitN` returns `min(n, separators + 1)` parts, all but the last separator-free |
| Strings.JoinSplitN | pkg/plugins/discovery/aws/get.go:56 | `SplitN` into `n` parts undoes a join of `n` parts whose first `n - 1` are separator-free; the last may contain anything |
| Strings.SplitNJoin | pkg/plugins/discovery/aws/get.go:56 | joining the parts of a `SplitN` gives back the original string |
| Arn.Parse | pkg/plugins/discovery/aws/get.go:56-59 | parsing succeeds iff the id starts with `arn:` and has at least five `:`; a missing prefix is the invalid-prefix error; a parsed ARN is well formed and prints back to the id |
| Arn.ParseFormat | pkg/plugins/discovery/aws/get.go:56 | parsing the printed form of a well-formed ARN returns that ARN |
| EksDiscovery.NameFromResource | pkg/plugins/discovery/aws/get.go:61-66 | the resource is accepted iff it holds exactly one `/`; otherwise the error is `ErrUnexpectedClusterFormat`; the name returned is what follows that `/` |
| EksDiscovery.GetClusterName | pkg/plugins/discovery/aws/get.go:55-67 | a parse failure is returned wrapped, with no split; the id translates iff it parses and its resource holds exactly one `/`; the result is the `/`-free part after it |
| EksDiscovery.ClusterNameOfArn | pkg/plugins/discovery/aws/get.go:61-66 | round trip: a well-formed ARN with resource `kind/name` (both `/`-free, `name` possibly empty) translates to exactly `name` |
| EksDiscovery.ClusterNameIgnoresResourceType | pkg/plugins/discovery/aws/get.go:61-66 | the resource type before the `/` is not inspected: any two kinds give the same name |
| EksDiscovery.OnePartResourceRejected | pkg/plugins/discovery/aws/get.go:61-64 | a resource with no `/`, the empty one included, fails with `ErrUnexpectedClusterFormat` |
| EksDiscovery.ThreePartResourceRejected | pkg/plugins/discovery/aws/get.go:61-64 | a resource with two `/` fails with `ErrUnexpectedClusterFormat`; the name after the first `/` is not taken |
| EksDiscovery.GetCluster | pkg/plugins/discovery/aws/get.go:34-53 | setup comes first. A failed setup stops the run with its error wrapped. A failed translation stops it before any lookup. The lookup runs only for the translated name. On success the cluster is exactly the one the lookup returned; on a failed lookup its error comes back wrapped with the cluster id |
| EksDiscovery.GetClusterConsultsOnlyTranslatedName | pkg/plugins/discovery/aws/get.go:40-47 | two lookups that agree on the translated name produce the same run. When setup or translation fails, any two lookups do, since none is consulted |
| EksDiscovery.GetClusterOfArn | pkg/plugins/discovery/aws/get.go:40-52 | after a successful setup, a well-formed ARN id is looked up under its name. The lookup's cluster is returned unchanged, or its error is wrapped with the id |
| ConfigSet.Add | pkg/plugins/identity/azure/aad/aad.go:177-179 | declaring an item (`ConfigSet.String` declares a string item through it) fails iff the name is already declared. On success the item is found under its name, and unique names stay unique |
| ConfigSet.AddKeepsOthers | pkg/plugins/identity/azure/aad/aad.go:177-179 | declaring an item changes no other name's item |
| ConfigSet.SetShort | pkg/plugins/identity/azure/aad/aad.go:181 | setting an alias fails with not-found iff the name is undeclared, else only that item's alias changes |
| ConfigSet.SetShortKeepsOthers | pkg/plugins/identity/azure/aad/aad.go:181 | setting an alias changes no other item and keeps names unique |
| ConfigSet.SetRequired | pkg/plugins/identity/azure/aad/aad.go:182 | marking required fails with not-found iff the name is undeclared, else only that item's flag changes |
| ConfigSet.SetRequiredKeepsOthers | pkg/plugins/identity/azure/aad/aad.go:182 | marking required changes no other item and keeps names unique |
| Aad.New | pkg/plugins/identity/azure/aad/aad.go:63-73 | creation fails with `ErrHTTPClientRequired` iff there is no HTTP client. Otherwise the provider keeps that client and the interactive hint |
| Aad.Name | pkg/plugins/identity/azure/aad/aad.go:89-91 | the provider's name is `"aad"` whatever the provider; `Aad.Authenticate` states every identity it builds carries it |
| Aad.ValidateConfig | pkg/plugins/identity/azure/aad/aad.go:160-166 | validation passes iff tenant id, client id and AAD host are all non-empty. The error names exactly the empty ones |
| Aad.AuthorityUriSegments | pkg/plugins/identity/azure/aad/aad.go:114 | `https://host/tenant/` splits on `/` into scheme, empty, host, tenant, empty |
| Aad.AuthorityUriInjective | pkg/plugins/identity/azure/aad/aad.go:114 | distinct `/`-free hosts or tenants give distinct authority URIs |
| Aad.AzLogin | pkg/plugins/identity/azure/aad/aad.go:134-151 | the password login always runs first. The interactive login runs once, for the tenant, iff the password login failed. The interactive flag is false iff the password login succeeded. It is true iff the password login failed and the interactive one succeeded. Otherwise the error is the interactive login's |
| Aad.Authenticate | pkg/plugins/identity/azure/aad/aad.go:94-158 | the k-th step attempted is the k-th of resolve, unmarshal, validate, endpoints, realm, password login, interactive login. Each step is attempted iff every earlier one succeeded, the endpoints are requested for the authority built from the unmarshalled configuration, and the interactive login runs iff the password login failed. The first failing step's error is returned, wrapped for that step, and no later step is attempted. On success the interactive flag is set iff the interactive login ran, and the identity carries the name `"aad"` and the provider's HTTP client |
| Aad.AuthenticateValid | pkg/plugins/identity/azure/aad/aad.go:110-126 | the same ordering for a valid configuration: the endpoints are resolved for the authority built from it. The run stops after that lookup iff it fails, with its error wrapped as `getting endpoints` |
| Aad.AuthenticateResolved | pkg/plugins/identity/azure/aad/aad.go:128-157 | the same ordering from the realm lookup on. The run stops after the realm lookup iff it fails, with its error wrapped as `getting user realm`. The interactive login follows iff the password login failed; the run then succeeds iff the interactive login does, and otherwise returns its error as `azure cli` |
| Aad.ResolveFailureStops | pkg/plugins/identity/azure/aad/aad.go:97-99 | a failed configuration resolution is the only step attempted and its error is returned wrapped |
| Aad.UnmarshalFailureStops | pkg/plugins/identity/azure/aad/aad.go:101-104 | a failed unmarshalling after a successful resolution returns its error wrapped, with nothing after it attempted |
| Aad.InvalidConfigMakesNoLookup | pkg/plugins/identity/azure/aad/aad.go:106-108 | an empty tenant id, client id or AAD host fails validation before any endpoint or realm lookup. The error names tenant-id iff it is empty |
| Aad.EndpointFailureStops | pkg/plugins/identity/azure/aad/aad.go:121-125 | a failed endpoint lookup returns its error wrapped. No realm lookup or login follows |
| Aad.RealmFailureStops | pkg/plugins/identity/azure/aad/aad.go:128-132 | a failed realm lookup returns its error wrapped. No login follows |
| Aad.PasswordLoginSucceeds | pkg/plugins/identity/azure/aad/aad.go:110-157 | a successful password login ends the run with no interactive login and the flag false. The identity copies tenant, host, client id, username and password, holds the authority URI `"https://" + host + "/" + tenant + "/"`, and holds the resolved endpoints and realm |
| Aad.PasswordLoginFails | pkg/plugins/identity/azure/aad/aad.go:110-153 | a failed password login (step six, with the configured username and password) is followed by exactly one interactive login for the tenant. Its success gives an identity marked interactive, with the same authentication config (copied fields, authority URI, endpoints) and realm as on the password path. Its failure gives the `azure cli` error and no identity |
| Aad.AuthenticateIgnoresInteractiveHint | pkg/plugins/identity/azure/aad/aad.go:101-157 | with the backend's outcomes fixed, the provider's stored interactive field does not affect the run: lines 101-157 never read it |
| Aad.ConfigurationItems | pkg/plugins/identity/azure/aad/aad.go:170-185 | the call fails, with `ErrAddingCommonCfg` and the cause dropped, iff adding the common items fails. Otherwise tenant-id is always declared, required and aliased `t`, client-id and aad-host are always declared (by this call or already by the common items), and unique names stay unique |
| Aad.OptionTable | pkg/plugins/identity/azure/aad/aad.go:177-182 | over common items without these names: tenant-id is a required string with empty default and alias `t`. client-id defaults to `04b07795-8ddb-461a-bbee-02f9e1bf7b46`. aad-host defaults to the worldwide host |
| Aad.OptionTableKeepsCommon | pkg/plugins/identity/azure/aad/aad.go:171-184 | every common item other than the three AAD items is kept unchanged, whatever the common items declare |

## Left out

- The `init()` registration of the `aad` plugin and its fatal log on failure (aad.go:49-60): process-wide registry state in a package that is not part of this model.
- `p.setup` and `p.getClusterConfig` (AWS SDK calls): the model takes the setup outcome and a lookup function from cluster name to result as inputs.
- `p.resolveConfig` and `config.Unmarshall`: inputs (a resolution outcome and an unmarshalling result). The body of `p.resolveConfig` is not in `aad.go`. If its outcome depends on the provider's `interactive` hint, that dependence is not modelled.
- The OAuth endpoint resolver, the user-realm lookup and `NewActiveDirectoryIdentity`: the first two are input functions returning a result, whose values are type parameters; the identity is a record of the arguments the code passes.
- Running `az login`: each attempt is an input giving success or failure. The model does not cover stdin/stderr wiring, the stderr buffer of the first attempt, or cancellation.
- Logging, `context.Context` and the HTTP client's behaviour: no effect on the results.
- Aad.ValidateConfig: covers only the three `validate:"required"` fields of `aadConfig`. The rules of the embedded `common.IdentityProviderConfig` are not visible and not modelled.
- Error messages: wrapping (`fmt.Errorf("…: %w")`) is modelled as one error constructor per message carrying the cause, not as text.
- The configuration package: only declaring a string item, setting an alias, marking required and lookup are modelled. Its validation pass and its bool/int declarations are not used by this code.
- The value of `identity.AADHostWorldwide`, `login.microsoftonline.com`, comes from the Azure identity package, which is not part of this model. Likewise the item names `"tenant-id"`, `"client-id"` and `"aad-host"` stand for `azure.TenantIDConfigItem`, `azure.ClientIDConfigItem` and `azure.AADHostConfigItem` from the Azure package, which is not part of this model; they are taken from the `json` tags of `aadConfig` (aad.go:84-86). The unmarshalling fills those fields from the items of the same name, so the names must agree.
- Aad.OptionTable: states the exact items only when the common items do not already use the three AAD names. Otherwise the source's ignored declaration errors keep the common item, and the model then only guarantees (through `Aad.ConfigurationItems`) that tenant-id is required and aliased `t`.
- ConfigSet.Add, ConfigSet.SetShort, ConfigSet.SetRequired: the configuration package is not part of this model. `aad.go` only calls these operations and ignores their errors (aad.go:177-182). The rules the model gives them are assumed, not read from source: a duplicate declaration fails with `AlreadyDeclared`; an alias or required flag on an undeclared name fails with not-found; a changed item keeps its position.
- `ConfigurationItems`' `scopeTo` argument is unused by the source (aad.go:170), and so by the model.
- Strings are modelled as sequences of characters, while Go strings are bytes. Splitting on the ASCII `:` and `/` gives the same parts either way. The length bounds in the `EksDiscovery.NameFromResource` and `EksDiscovery.GetClusterName` contracts count characters, not bytes.

=== FILE: aad.dfy ===
/** The Azure Active Directory identity provider (`aad`).

    `Authenticate` is a strictly ordered sequence of steps: resolve the
    configuration, unmarshal it, validate it, build the authority, resolve the
    OAuth endpoints, get the user realm, log in with `az` using the username and
    password, fall back to an interactive `az login` if that fails, and build the
    identity. The steps that call out (configuration resolution, unmarshalling,
    the endpoint and realm HTTP lookups, the two `az` runs) are inputs to the
    model, collected in a `Backend`; a run records which steps were attempted. */
module Aad {
  import opened Results
  import opened Strings
  import opened ConfigSet

  const ProviderName: string := "aad"

  /** Configuration item names, matching the `json` tags of the config record. */
  const TenantIdItem: string := "tenant-id"
  const ClientIdItem: string := "client-id"
  const AadHostItem: string := "aad-host"

  /** The client id used when none is configured. */
  const DefaultClientId: string := "04b07795-8ddb-461a-bbee-02f9e1bf7b46"
  /** The worldwide AAD host (`identity.AADHostWorldwide`). */
  const AadHostWorldwide: string := "login.microsoftonline.com"

  // ---------------------------------------------------------------- creation

  /** The shared HTTP client handed to providers; its behaviour is not modelled. */
  datatype HttpClient = HttpClient(handle: nat)

  datatype PluginCreationInput = PluginCreationInput(httpClient: Option<HttpClient>, isInteractive: bool)

  datatype CreationError = HttpClientRequired   // provider.ErrHTTPClientRequired

  datatype AadProvider = AadProvider(interactive: bool, httpClient: HttpClient)

  /** `New`: a provider needs an HTTP client; the interactive hint is stored. */
  function New(input: PluginCreationInput): (r: Result<AadProvider, CreationError>)
    ensures r.Err? <==> input.httpClient.None?
    ensures r.Err? ==> r.error == HttpClientRequired
    ensures r.Ok? ==> r.value.httpClient == input.httpClient.value && r.value.interactive == input.isInteractive
  {
    match input.httpClient
    case None => Err(HttpClientRequired)
    case Some(client) => Ok(AadProvider(input.isInteractive, client))
  }

  /** `Name`: the provider's registered name, the same for every provider. */
  function Name(p: AadProvider): (n: string)
    ensures n == "aad"
  {
    ProviderName
  }

  // ---------------------------------------------------------- configuration

  /** The unmarshalled configuration: the common identity fields used here
      (username, password) and the three AAD fields. */
  datatype AadConfig = AadConfig(username: string, password: string, tenantId: string, clientId: string, aadHost: string)

  /** The fields tagged `validate:"required"`. */
  datatype Field = TenantId | ClientId | AadHost

  datatype ValidationError = ValidationError(missing: seq<Field>)   // names the empty required fields

  /** `validateConfig`: every required field must be non-empty; the error names
      each empty one, in declaration order. */
  function ValidateConfig(cfg: AadConfig): (r: Outcome<ValidationError>)
    ensures r.Pass? <==> cfg.tenantId != "" && cfg.clientId != "" && cfg.aadHost != ""
    ensures r.Fail? ==> (TenantId in r.error.missing <==> cfg.tenantId == "")
    ensures r.Fail? ==> (ClientId in r.error.missing <==> cfg.clientId == "")
    ensures r.Fail? ==> (AadHost in r.error.missing <==> cfg.aadHost == "")
  {
    var missing := (if cfg.tenantId == "" then [TenantId] else [])
                 + (if cfg.clientId == "" then [ClientId] else [])
                 + (if cfg.aadHost == "" then [AadHost] else []);
    if missing == [] then Pass else Fail(ValidationError(missing))
  }

  // --------------------------------------------------------------- authority

  datatype AuthorityConfig = AuthorityConfig(tenant: string, host: string, authorityUri: string)

  /** `https://<host>/<tenant>/`. */
  function AuthorityUri(host: string, tenant: string): string
  {
    "https://" + host + "/" + tenant + "/"
  }

  /** The authority built from a configuration. */
  function Authority(cfg: AadConfig): AuthorityConfig
  {
    AuthorityConfig(cfg.tenantId, cfg.aadHost, AuthorityUri(cfg.aadHost, cfg.tenantId))
  }

  /** The authority URI reads back as scheme, empty segment, host, tenant and a
      trailing empty segment when host and tenant hold no `/`. */
  lemma AuthorityUriSegments(host: string, tenant: string)
    requires '/' !in host && '/' !in tenant
    ensures Split(AuthorityUri(host, tenant), '/') == ["https:", "", host, tenant, ""]
    ensures Split(AuthorityUri(host, tenant), '/')[2] == host
    ensures Split(AuthorityUri(host, tenant), '/')[3] == tenant
  {
    var parts := ["https:", "", host, tenant, ""];
    var l := parts;
    assert l[1..] == ["", host, tenant, ""];
    assert l[1..][1..] == [host, tenant, ""];
    assert l[1..][1..][1..] == [tenant, ""];
    assert Join([tenant, ""], '/') == tenant + "/";
    assert Join([host, tenant, ""], '/') == host + "/" + tenant + "/";
    assert Join(["", host, tenant, ""], '/') == "/" + host + "/" + tenant + "/";
    assert Join(parts, '/') == AuthorityUri(host, tenant);
    JoinSplit(parts, '/');
  }

  /** Distinct hosts or tenants give distinct authority URIs. */
  lemma AuthorityUriInjective(host1: string, tenant1: string, host2: string, tenant2: string)
    requires '/' !in host1 && '/' !in tenant1 && '/' !in host2 && '/' !in tenant2
    requires AuthorityUri(host1, tenant1) == AuthorityUri(host2, tenant2)
    ensures host1 == host2 && tenant1 == tenant2
  {
    AuthorityUriSegments(host1, tenant1);
    AuthorityUriSegments(host2, tenant2);
  }

  // ---------------------------------------------------------- authentication

  /** `identity.AuthenticationConfig`; `E` is whatever the endpoint resolver
      returns. */
  datatype AuthenticationConfig<E> = AuthenticationConfig(
    authority: AuthorityConfig,
    clientId: string,
    username: string,
    password: string,
    endpoints: Option<E>)

  /** `identity.NewActiveDirectoryIdentity`'s result; `R` is the user realm. */
  datatype Identity<E, R> = ActiveDirectoryIdentity(
    authConfig: AuthenticationConfig<E>,
    userRealm: R,
    providerName: string,
    httpClient: HttpClient,
    interactiveLoginRequired: bool)

  /** The steps of `Authenticate`, in their fixed order. */
  datatype Step =
    | ResolveConfig
    | Unmarshal
    | Validate
    | ResolveEndpoints(authority: AuthorityConfig)
    | GetUserRealm
    | PasswordLogin(username: string, password: string)   // az login --username .. --password ..
    | InteractiveLogin(tenant: string)                    // az login --tenant ..

  /** Position of a step in the fixed order. */
  function Rank(s: Step): nat
  {
    match s
    case ResolveConfig => 0
    case Unmarshal => 1
    case Validate => 2
    case ResolveEndpoints(_) => 3
    case GetUserRealm => 4
    case PasswordLogin(_, _) => 5
    case InteractiveLogin(_) => 6
  }

  /** The k-th step attempted is the k-th step of the fixed order: steps run in
      order, none is skipped and none repeats. */
  predicate InFixedOrder(steps: seq<Step>)
  {
    forall k :: 0 <= k < |steps| ==> Rank(steps[k]) == k
  }

  /** Steps that continue the fixed order where `first` stops extend it. */
  lemma FixedOrderAppend(first: seq<Step>, next: seq<Step>)
    requires InFixedOrder(first)
    requires forall k :: 0 <= k < |next| ==> Rank(next[k]) == |first| + k
    ensures InFixedOrder(first + next)
  {
    forall k | 0 <= k < |first + next|
      ensures Rank((first + next)[k]) == k
    {
      if k >= |first| {
        assert (first + next)[k] == next[k - |first|];
      }
    }
  }

  datatype AuthError =
    | ResolvingConfig(cause: Cause)              // configuration resolution failed
    | Unmarshalling(cause: Cause)                // unmarshalling failed
    | ValidatingConfig(invalid: ValidationError)
    | GettingEndpoints(cause: Cause)             // the endpoint lookup failed
    | GettingUserRealm(cause: Cause)             // the realm lookup failed
    | AzureCli(cause: Cause)                     // the interactive login's error

  /** Rank of the step an error comes from. */
  function FailedRank(e: AuthError): nat
  {
    match e
    case ResolvingConfig(_) => 0
    case Unmarshalling(_) => 1
    case ValidatingConfig(_) => 2
    case GettingEndpoints(_) => 3
    case GettingUserRealm(_) => 4
    case AzureCli(_) => 6
  }

  /** What the outside world answers at each step that calls out. */
  datatype Backend<!E, R> = Backend(
    resolveConfig: Outcome<Cause>,
    unmarshal: Result<AadConfig, Cause>,
    resolveEndpoints: AuthorityConfig -> Result<E, Cause>,
    getUserRealm: AuthenticationConfig<E> -> Result<R, Cause>,
    passwordLogin: (string, string) -> Outcome<Cause>,
    interactiveLogin: string -> Outcome<Cause>)

  /** What `Authenticate` returned, and the steps it attempted. */
  datatype AuthenticateRun<E, R> = AuthenticateRun(result: Result<Identity<E, R>, AuthError>, steps: seq<Step>)

  /** The authentication config handed to the realm lookup and the identity. */
  function AuthConfigOf<E>(cfg: AadConfig, endpoints: E): AuthenticationConfig<E>
  {
    AuthenticationConfig(Authority(cfg), cfg.clientId, cfg.username, cfg.password, Some(endpoints))
  }

  /** The two `az login` runs and what they decide. */
  datatype LoginRun = LoginRun(interactiveRequired: Result<bool, Cause>, steps: seq<Step>)

  /** The login fallback: a password login first; only if it fails, one
      interactive login for the tenant. The result says whether the interactive
      login was needed, or carries the interactive login's error; the password
      login's error is dropped. */
  function AzLogin(passwordLogin: (string, string) -> Outcome<Cause>, interactiveLogin: string -> Outcome<Cause>, cfg: AadConfig)
    : (run: LoginRun)
    ensures 1 <= |run.steps| <= 2 && run.steps[0] == PasswordLogin(cfg.username, cfg.password)
    ensures |run.steps| == 2 <==> passwordLogin(cfg.username, cfg.password).Fail?
    ensures |run.steps| == 2 ==> run.steps[1] == InteractiveLogin(cfg.tenantId)
    ensures forall k :: 0 <= k < |run.steps| ==> Rank(run.steps[k]) == 5 + k
    ensures run.interactiveRequired == Ok(false) <==> passwordLogin(cfg.username, cfg.password).Pass?
    ensures run.interactiveRequired == Ok(true)
            <==> passwordLogin(cfg.username, cfg.password).Fail? && interactiveLogin(cfg.tenantId).Pass?
    ensures run.interactiveRequired.Err? ==> run.interactiveRequired.error == interactiveLogin(cfg.tenantId).error
  {
    if passwordLogin(cfg.username, cfg.password).Pass? then
      LoginRun(Ok(false), [PasswordLogin(cfg.username, cfg.password)])
    else
      var steps := [PasswordLogin(cfg.username, cfg.password), InteractiveLogin(cfg.tenantId)];
      match interactiveLogin(cfg.tenantId)
      case Fail(e) => LoginRun(Err(e), steps)
      case Pass => LoginRun(Ok(true), steps)
  }

  /** `Authenticate`. The first failing step ends the run with its error; a
      failed password login is not an error but triggers one interactive login,
      whose outcome decides the result and sets `interactiveLoginRequired`. */
  function Authenticate<E, R>(p: AadProvider, b: Backend<E, R>): (run: AuthenticateRun<E, R>)
    ensures 1 <= |run.steps| <= 7 && InFixedOrder(run.steps)
    ensures run.result.Err? ==> Rank(run.steps[|run.steps| - 1]) == FailedRank(run.result.error)
    ensures run.result.Ok? ==> 6 <= |run.steps|
    ensures run.result.Ok? ==> (run.result.value.interactiveLoginRequired <==> |run.steps| == 7)
    ensures run.result.Ok? ==> run.result.value.providerName == "aad" && run.result.value.httpClient == p.httpClient
    // which outcome ends the run: each step is attempted iff every earlier one succeeded
    ensures |run.steps| >= 2 <==> b.resolveConfig.Pass?
    ensures |run.steps| >= 3 <==> b.resolveConfig.Pass? && b.unmarshal.Ok?
    ensures |run.steps| >= 4 <==> b.resolveConfig.Pass? && b.unmarshal.Ok? && ValidateConfig(b.unmarshal.value).Pass?
    ensures |run.steps| >= 4 ==> run.steps[3] == ResolveEndpoints(Authority(b.unmarshal.value))
    ensures |run.steps| >= 4 ==>
              (|run.steps| >= 5 <==> b.resolveEndpoints(Authority(b.unmarshal.value)).Ok?)
    ensures |run.steps| >= 5 ==>
              var cfg := b.unmarshal.value;
              (|run.steps| >= 6 <==> b.getUserRealm(AuthConfigOf(cfg, b.resolveEndpoints(Authority(cfg)).value)).Ok?)
    ensures |run.steps| >= 6 ==>
              var cfg := b.unmarshal.value;
              (|run.steps| == 7 <==> b.passwordLogin(cfg.username, cfg.password).Fail?)
    // and with which error
    ensures |run.steps| == 1 ==> run.result == Err(ResolvingConfig(b.resolveConfig.error))
    ensures |run.steps| == 2 ==> run.result == Err(Unmarshalling(b.unmarshal.error))
    ensures |run.steps| == 3 ==> run.result == Err(ValidatingConfig(ValidateConfig(b.unmarshal.value).error))
    ensures |run.steps| == 4 ==>
              run.result == Err(GettingEndpoints(b.resolveEndpoints(Authority(b.unmarshal.value)).error))
    ensures |run.steps| == 5 ==>
              var cfg := b.unmarshal.value;
              run.result == Err(GettingUserRealm(b.getUserRealm(AuthConfigOf(cfg, b.resolveEndpoints(Authority(cfg)).value)).error))
    ensures |run.steps| == 7 ==>
              var tenant := b.unmarshal.value.tenantId;
              (run.result.Ok? <==> b.interactiveLogin(tenant).Pass?)
              && (run.result.Err? ==> run.result.error == AzureCli(b.interactiveLogin(tenant).error))
  {
    if b.resolveConfig.Fail? then AuthenticateRun(Err(ResolvingConfig(b.resolveConfig.error)), [ResolveConfig])
    else
      match b.unmarshal
      case Err(e) => AuthenticateRun(Err(Unmarshalling(e)), [ResolveConfig, Unmarshal])
      case Ok(cfg) =>
        match ValidateConfig(cfg)
        case Fail(v) => AuthenticateRun(Err(ValidatingConfig(v)), [ResolveConfig, Unmarshal, Validate])
        case Pass => AuthenticateValid(p, b, cfg)
  }

  /** `Authenticate` from the authority on, for a configuration that passed
      validation. */
  function AuthenticateValid<E, R>(p: AadProvider, b: Backend<E, R>, cfg: AadConfig): (run: AuthenticateRun<E, R>)
    ensures 4 <= |run.steps| <= 7 && InFixedOrder(run.steps)
    ensures run.steps[3] == ResolveEndpoints(Authority(cfg))
    ensures run.result.Err? ==> Rank(run.steps[|run.steps| - 1]) == FailedRank(run.result.error)
    ensures run.result.Ok? ==> 6 <= |run.steps|
    ensures run.result.Ok? ==> (run.result.value.interactiveLoginRequired <==> |run.steps| == 7)
    ensures run.result.Ok? ==> run.result.value.providerName == Name(p) && run.result.value.httpClient == p.httpClient
    ensures |run.steps| == 4 <==> b.resolveEndpoints(Authority(cfg)).Err?
    ensures |run.steps| == 4 ==> run.result == Err(GettingEndpoints(b.resolveEndpoints(Authority(cfg)).error))
  {
    var authority := Authority(cfg);
    match b.resolveEndpoints(authority)
    case Err(e) => AuthenticateRun(Err(GettingEndpoints(e)), [ResolveConfig, Unmarshal, Validate, ResolveEndpoints(authority)])
    case Ok(endpoints) => AuthenticateResolved(p, b, cfg, endpoints)
  }

  /** `Authenticate` from the user-realm lookup on, once the endpoints are
      resolved. */
  function AuthenticateResolved<E, R>(p: AadProvider, b: Backend<E, R>, cfg: AadConfig, endpoints: E)
    : (run: AuthenticateRun<E, R>)
    ensures 5 <= |run.steps| <= 7 && InFixedOrder(run.steps)
    ensures run.steps[3] == ResolveEndpoints(Authority(cfg))
    ensures run.result.Err? ==> Rank(run.steps[|run.steps| - 1]) == FailedRank(run.result.error)
    ensures run.result.Ok? ==> 6 <= |run.steps|
    ensures run.result.Ok? ==> (run.result.value.interactiveLoginRequired <==> |run.steps| == 7)
    ensures run.result.Ok? ==> run.result.value.providerName == Name(p) && run.result.value.httpClient == p.httpClient
    ensures |run.steps| == 5 <==> b.getUserRealm(AuthConfigOf(cfg, endpoints)).Err?
    ensures |run.steps| == 5 ==> run.result == Err(GettingUserRealm(b.getUserRealm(AuthConfigOf(cfg, endpoints)).error))
    ensures |run.steps| >= 6 ==> (|run.steps| == 7 <==> b.passwordLogin(cfg.username, cfg.password).Fail?)
    ensures |run.steps| == 7 ==> (run.result.Ok? <==> b.interactiveLogin(cfg.tenantId).Pass?)
    ensures |run.steps| == 7 && run.result.Err? ==> run.result.error == AzureCli(b.interactiveLogin(cfg.tenantId).error)
  {
    var authCfg := AuthConfigOf(cfg, endpoints);
    var steps := [ResolveConfig, Unmarshal, Validate, ResolveEndpoints(Authority(cfg)), GetUserRealm];
    match b.getUserRealm(authCfg)
    case Err(e) => AuthenticateRun(Err(GettingUserRealm(e)), steps)
    case Ok(userRealm) =>
      var login := AzLogin(b.passwordLogin, b.interactiveLogin, cfg);
      FixedOrderAppend(steps, login.steps);
      match login.interactiveRequired
      case Err(e) => AuthenticateRun(Err(AzureCli(e)), steps + login.steps)
      case Ok(interactive) =>
        AuthenticateRun(Ok(ActiveDirectoryIdentity(authCfg, userRealm, ProviderName, p.httpClient, interactive)),
                        steps + login.steps)
  }

  /** Every step before the logins succeeds, with configuration `cfg`,
      endpoints `endpoints` and realm `realm`. */
  ghost predicate ReachesLogin<E, R>(b: Backend<E, R>, cfg: AadConfig, endpoints: E, realm: R)
  {
    && b.resolveConfig.Pass?
    && b.unmarshal == Ok(cfg)
    && ValidateConfig(cfg).Pass?
    && b.resolveEndpoints(Authority(cfg)) == Ok(endpoints)
    && b.getUserRealm(AuthConfigOf(cfg, endpoints)) == Ok(realm)
  }

  /** A failed configuration resolution stops everything. */
  lemma ResolveFailureStops<E, R>(p: AadProvider, b: Backend<E, R>)
    requires b.resolveConfig.Fail?
    ensures Authenticate(p, b) == AuthenticateRun(Err(ResolvingConfig(b.resolveConfig.error)), [ResolveConfig])
  {
  }

  /** A failed unmarshalling returns its error wrapped; nothing after it is
      attempted. */
  lemma UnmarshalFailureStops<E, R>(p: AadProvider, b: Backend<E, R>)
    requires b.resolveConfig.Pass? && b.unmarshal.Err?
    ensures Authenticate(p, b) == AuthenticateRun(Err(Unmarshalling(b.unmarshal.error)), [ResolveConfig, Unmarshal])
  {
  }

  /** A configuration with an empty tenant id, client id or AAD host fails
      validation before any endpoint or realm lookup, naming the empty fields. */
  lemma InvalidConfigMakesNoLookup<E, R>(p: AadProvider, b: Backend<E, R>, cfg: AadConfig)
    requires b.resolveConfig.Pass? && b.unmarshal == Ok(cfg)
    requires cfg.tenantId == "" || cfg.clientId == "" || cfg.aadHost == ""
    ensures Authenticate(p, b).steps == [ResolveConfig, Unmarshal, Validate]
    ensures Authenticate(p, b).result.Err? && Authenticate(p, b).result.error.ValidatingConfig?
    ensures TenantId in Authenticate(p, b).result.error.invalid.missing <==> cfg.tenantId == ""
  {
  }

  /** A failed endpoint lookup returns its error wrapped; the realm lookup and
      both logins are not attempted. */
  lemma EndpointFailureStops<E, R>(p: AadProvider, b: Backend<E, R>, cfg: AadConfig)
    requires b.resolveConfig.Pass? && b.unmarshal == Ok(cfg) && ValidateConfig(cfg).Pass?
    requires b.resolveEndpoints(Authority(cfg)).Err?
    ensures Authenticate(p, b).result == Err(GettingEndpoints(b.resolveEndpoints(Authority(cfg)).error))
    ensures Authenticate(p, b).steps == [ResolveConfig, Unmarshal, Validate, ResolveEndpoints(Authority(cfg))]
  {
  }

  /** A failed realm lookup returns its error wrapped; no login is attempted. */
  lemma RealmFailureStops<E, R>(p: AadProvider, b: Backend<E, R>, cfg: AadConfig, endpoints: E)
    requires b.resolveConfig.Pass? && b.unmarshal == Ok(cfg) && ValidateConfig(cfg).Pass?
    requires b.resolveEndpoints(Authority(cfg)) == Ok(endpoints)
    requires b.getUserRealm(AuthConfigOf(cfg, endpoints)).Err?
    ensures Authenticate(p, b).result == Err(GettingUserRealm(b.getUserRealm(AuthConfigOf(cfg, endpoints)).error))
    ensures |Authenticate(p, b).steps| == 5
  {
  }

  /** A successful password login ends the run: no interactive login, and the
      identity says none was required. The identity carries the configuration's
      tenant, host, client id, username and password unchanged, the authority
      URI built from host and tenant, and the resolved endpoints and realm. */
  lemma PasswordLoginSucceeds<E, R>(p: AadProvider, b: Backend<E, R>, cfg: AadConfig, endpoints: E, realm: R)
    requires ReachesLogin(b, cfg, endpoints, realm)
    requires b.passwordLogin(cfg.username, cfg.password).Pass?
    ensures Authenticate(p, b).steps[5] == PasswordLogin(cfg.username, cfg.password)
    ensures |Authenticate(p, b).steps| == 6
    ensures Authenticate(p, b).result.Ok?
    ensures !Authenticate(p, b).result.value.interactiveLoginRequired
    ensures Authenticate(p, b).result.value.userRealm == realm
    ensures Authenticate(p, b).result.value.authConfig == AuthenticationConfig(
              AuthorityConfig(cfg.tenantId, cfg.aadHost, "https://" + cfg.aadHost + "/" + cfg.tenantId + "/"),
              cfg.clientId, cfg.username, cfg.password, Some(endpoints))
  {
  }

  /** A failed password login is followed by exactly one interactive login for
      the tenant; its success gives an identity marked interactive but otherwise
      built as on the password path, its failure the `azure cli` error. */
  lemma PasswordLoginFails<E, R>(p: AadProvider, b: Backend<E, R>, cfg: AadConfig, endpoints: E, realm: R)
    requires ReachesLogin(b, cfg, endpoints, realm)
    requires b.passwordLogin(cfg.username, cfg.password).Fail?
    ensures |Authenticate(p, b).steps| == 7
    ensures Authenticate(p, b).steps[5] == PasswordLogin(cfg.username, cfg.password)
    ensures Authenticate(p, b).steps[6] == InteractiveLogin(cfg.tenantId)
    ensures b.interactiveLogin(cfg.tenantId).Pass? ==>
              Authenticate(p, b).result.Ok? && Authenticate(p, b).result.value.interactiveLoginRequired
    ensures b.interactiveLogin(cfg.tenantId).Pass? ==>
              Authenticate(p, b).result.value.userRealm == realm
    ensures b.interactiveLogin(cfg.tenantId).Pass? ==>
              Authenticate(p, b).result.value.authConfig == AuthenticationConfig(
                AuthorityConfig(cfg.tenantId, cfg.aadHost, "https://" + cfg.aadHost + "/" + cfg.tenantId + "/"),
                cfg.clientId, cfg.username, cfg.password, Some(endpoints))
    ensures b.interactiveLogin(cfg.tenantId).Fail? ==>
              Authenticate(p, b).result == Err(AzureCli(b.interactiveLogin(cfg.tenantId).error))
  {
  }

  /** With every outcome of the backend fixed, the provider's stored
      interactive hint plays no part in the steps that follow configuration
      resolution: the login fallback is taken regardless of it. */
  lemma AuthenticateIgnoresInteractiveHint<E, R>(p: AadProvider, b: Backend<E, R>)
    ensures Authenticate(p.(interactive := true), b) == Authenticate(p.(interactive := false), b)
  {
  }

  // -------------------------------------------------------- option table

  datatype ItemsError = AddingCommonCfg   // ErrAddingCommonCfg; the cause is dropped

  /** The AAD item `name` as `ConfigurationItems` declares it. */
  function DeclaredItem(name: string, defaultValue: string, description: string): Item
  {
    Item(name, StringType, description, StringValue(defaultValue), false, None)
  }

  /** `ConfigurationItems`: the common identity items (`common`, or the error
      adding them), then the three AAD string items; tenant-id gets the short
      alias `t` and is marked required. Errors from declaring the items and from
      setting alias and required flag are ignored, as in the source. */
  function ConfigurationItems(scopeTo: string, common: Result<ConfigurationSet, Cause>)
    : (r: Result<ConfigurationSet, ItemsError>)
    ensures r.Err? <==> common.Err?
    ensures r.Err? ==> r.error == AddingCommonCfg
    ensures r.Ok? ==> Get(r.value, TenantIdItem).Ok?
    ensures r.Ok? ==> Get(r.value, TenantIdItem).value.required
    ensures r.Ok? ==> Get(r.value, TenantIdItem).value.shorthand == Some("t")
    ensures r.Ok? ==> Declared(r.value, ClientIdItem) && Declared(r.value, AadHostItem)
    ensures r.Ok? && UniqueNames(common.value) ==> UniqueNames(r.value)
  {
    match common
    case Err(_) => Err(AddingCommonCfg)
    case Ok(cs0) =>
      var cs1 := Unchecked(cs0, String(cs0, TenantIdItem, "", "The azure tenant id"));
      var cs2 := Unchecked(cs1, String(cs1, ClientIdItem, DefaultClientId, "The azure ad client id"));
      var cs3 := Unchecked(cs2, String(cs2, AadHostItem, AadHostWorldwide, "The AAD host to use"));
      TenantIdStaysDeclared(cs0, cs1, cs2, cs3);
      var cs4 := Unchecked(cs3, SetShort(cs3, TenantIdItem, "t"));
      SetShortKeepsOthers(cs3, TenantIdItem, "t", ClientIdItem);
      SetShortKeepsOthers(cs3, TenantIdItem, "t", AadHostItem);
      var cs5 := Unchecked(cs4, SetRequired(cs4, TenantIdItem));
      SetRequiredKeepsOthers(cs4, TenantIdItem, ClientIdItem);
      SetRequiredKeepsOthers(cs4, TenantIdItem, AadHostItem);
      Ok(cs5)
  }

  /** Declaring the three items, ignoring the errors, leaves all three declared:
      each is either added or was already there, and a later declaration keeps
      the earlier ones. */
  lemma TenantIdStaysDeclared(cs0: ConfigurationSet, cs1: ConfigurationSet, cs2: ConfigurationSet, cs3: ConfigurationSet)
    requires cs1 == Unchecked(cs0, String(cs0, TenantIdItem, "", "The azure tenant id"))
    requires cs2 == Unchecked(cs1, String(cs1, ClientIdItem, DefaultClientId, "The azure ad client id"))
    requires cs3 == Unchecked(cs2, String(cs2, AadHostItem, AadHostWorldwide, "The AAD host to use"))
    ensures Declared(cs3, TenantIdItem) && Declared(cs3, ClientIdItem) && Declared(cs3, AadHostItem)
    ensures UniqueNames(cs0) ==> UniqueNames(cs3)
  {
    assert Get(cs1, TenantIdItem).Ok?;
    if String(cs1, ClientIdItem, DefaultClientId, "The azure ad client id").Ok? {
      AddKeepsOthers(cs1, DeclaredItem(ClientIdItem, DefaultClientId, "The azure ad client id"), TenantIdItem);
    }
    assert Get(cs2, TenantIdItem).Ok?;
    assert Get(cs2, ClientIdItem).Ok?;
    KeepsOthersUnchecked(cs2, DeclaredItem(AadHostItem, AadHostWorldwide, "The AAD host to use"), ClientIdItem);
    if String(cs2, AadHostItem, AadHostWorldwide, "The AAD host to use").Ok? {
      AddKeepsOthers(cs2, DeclaredItem(AadHostItem, AadHostWorldwide, "The AAD host to use"), TenantIdItem);
    }
    assert Get(cs3, TenantIdItem).Ok?;
  }

  /** The option table: when the common items use none of the three AAD names,
      tenant-id has an empty default, alias `t` and is required; client-id
      defaults to the Azure CLI's client id; aad-host to the worldwide host. */
  lemma OptionTable(scopeTo: string, cs0: ConfigurationSet)
    requires !Declared(cs0, TenantIdItem) && !Declared(cs0, ClientIdItem) && !Declared(cs0, AadHostItem)
    ensures ConfigurationItems(scopeTo, Ok(cs0)).Ok?
    ensures Get(ConfigurationItems(scopeTo, Ok(cs0)).value, TenantIdItem)
            == Ok(Item(TenantIdItem, StringType, "The azure tenant id", StringValue(""), true, Some("t")))
    ensures Get(ConfigurationItems(scopeTo, Ok(cs0)).value, ClientIdItem)
            == Ok(Item(ClientIdItem, StringType, "The azure ad client id", StringValue(DefaultClientId), false, None))
    ensures Get(ConfigurationItems(scopeTo, Ok(cs0)).value, AadHostItem)
            == Ok(Item(AadHostItem, StringType, "The AAD host to use", StringValue(AadHostWorldwide), false, None))
  {
    var cs1 := Unchecked(cs0, String(cs0, TenantIdItem, "", "The azure tenant id"));
    DeclareStep(cs0, DeclaredItem(TenantIdItem, "", "The azure tenant id"), ClientIdItem);
    DeclareStep(cs0, DeclaredItem(TenantIdItem, "", "The azure tenant id"), AadHostItem);
    var cs2 := Unchecked(cs1, String(cs1, ClientIdItem, DefaultClientId, "The azure ad client id"));
    DeclareStep(cs1, DeclaredItem(ClientIdItem, DefaultClientId, "The azure ad client id"), TenantIdItem);
    DeclareStep(cs1, DeclaredItem(ClientIdItem, DefaultClientId, "The azure ad client id"), AadHostItem);
    var cs3 := Unchecked(cs2, String(cs2, AadHostItem, AadHostWorldwide, "The AAD host to use"));
    DeclareStep(cs2, DeclaredItem(AadHostItem, AadHostWorldwide, "The AAD host to use"), TenantIdItem);
    DeclareStep(cs2, DeclaredItem(AadHostItem, AadHostWorldwide, "The AAD host to use"), ClientIdItem);
    var cs4 := Unchecked(cs3, SetShort(cs3, TenantIdItem, "t"));
    SetShortKeepsOthers(cs3, TenantIdItem, "t", ClientIdItem);
    SetShortKeepsOthers(cs3, TenantIdItem, "t", AadHostItem);
    var cs5 := Unchecked(cs4, SetRequired(cs4, TenantIdItem));
    SetRequiredKeepsOthers(cs4, TenantIdItem, ClientIdItem);
    SetRequiredKeepsOthers(cs4, TenantIdItem, AadHostItem);
    assert ConfigurationItems(scopeTo, Ok(cs0)) == Ok(cs5);
  }

  /** The option table keeps every common item that is not one of the three
      AAD items unchanged, whatever the common items declare. */
  lemma OptionTableKeepsCommon(scopeTo: string, cs0: ConfigurationSet, name: string)
    requires name != TenantIdItem && name != ClientIdItem && name != AadHostItem
    ensures ConfigurationItems(scopeTo, Ok(cs0)).Ok?
    ensures Get(ConfigurationItems(scopeTo, Ok(cs0)).value, name) == Get(cs0, name)
  {
    var cs1 := Unchecked(cs0, String(cs0, TenantIdItem, "", "The azure tenant id"));
    KeepsOthersUnchecked(cs0, DeclaredItem(TenantIdItem, "", "The azure tenant id"), name);
    var cs2 := Unchecked(cs1, String(cs1, ClientIdItem, DefaultClientId, "The azure ad client id"));
    KeepsOthersUnchecked(cs1, DeclaredItem(ClientIdItem, DefaultClientId, "The azure ad client id"), name);
    var cs3 := Unchecked(cs2, String(cs2, AadHostItem, AadHostWorldwide, "The AAD host to use"));
    KeepsOthersUnchecked(cs2, DeclaredItem(AadHostItem, AadHostWorldwide, "The AAD host to use"), name);
    TenantIdStaysDeclared(cs0, cs1, cs2, cs3);
    var cs4 := Unchecked(cs3, SetShort(cs3, TenantIdItem, "t"));
    SetShortKeepsOthers(cs3, TenantIdItem, "t", name);
    var cs5 := Unchecked(cs4, SetRequired(cs4, TenantIdItem));
    SetRequiredKeepsOthers(cs4, TenantIdItem, name);
    assert ConfigurationItems(scopeTo, Ok(cs0)) == Ok(cs5);
  }

  /** A declaration whose error is ignored leaves the item of another name as
      it was, whether or not the declaration succeeded. */
  lemma KeepsOthersUnchecked(cs: ConfigurationSet, item: Item, other: string)
    requires other != item.name
    ensures Get(Unchecked(cs, Add(cs, item)), other) == Get(cs, other)
  {
    if Add(cs, item).Ok? {
      AddKeepsOthers(cs, item, other);
    }
  }

  /** Declaring an undeclared item succeeds, finds the item under its name, and
      leaves the item of another name as it was. */
  lemma DeclareStep(cs: ConfigurationSet, item: Item, other: string)
    requires !Declared(cs, item.name) && other != item.name
    ensures Add(cs, item).Ok?
    ensures Get(Unchecked(cs, Add(cs, item)), item.name) == Ok(item)
    ensures Get(Unchecked(cs, Add(cs, item)), other) == Get(cs, other)
  {
    AddKeepsOthers(cs, item, other);
  }
}

=== FILE: arn.dfy ===
/** Amazon Resource Names as the AWS SDK for Go v2 (`aws/arn`) parses them.

    The format is `arn:partition:service:region:account-id:resource` (AWS General
    Reference, "Amazon Resource Name (ARN) format"). Parsing checks the `arn:`
    prefix, then splits on `:` into at most six sections, so the sixth section,
    the resource, is the unsplit remainder and may itself contain `:`. */
module Arn {
  import opened Results
  import opened Strings

  const Prefix: string := "arn:"
  const Delimiter: char := ':'
  const Sections: nat := 6

  datatype Arn = Arn(partition: string, service: string, region: string, accountId: string, resource: string)

  datatype ArnError =
    | InvalidPrefix       // the string does not start with `arn:`
    | NotEnoughSections   // fewer than six `:`-separated sections

  /** The four middle sections are single sections; the resource is free-form. */
  predicate WellFormed(a: Arn)
  {
    && Delimiter !in a.partition
    && Delimiter !in a.service
    && Delimiter !in a.region
    && Delimiter !in a.accountId
  }

  /** The textual form of an ARN (the SDK's `ARN.String`). */
  function Format(a: Arn): string
  {
    Join(Fields(a), Delimiter)
  }

  /** The six sections of an ARN's textual form, the literal `arn` first. */
  function Fields(a: Arn): seq<string>
  {
    ["arn", a.partition, a.service, a.region, a.accountId, a.resource]
  }

  /** `arn.Parse`: succeeds exactly on strings that start with `arn:` and hold at
      least five `:`; what it returns prints back to the input. */
  function Parse(s: string): (r: Result<Arn, ArnError>)
    ensures r.Ok? <==> Prefix <= s && Count(s, Delimiter) >= Sections - 1
    ensures r.Err? ==> (r.error == InvalidPrefix <==> !(Prefix <= s))
    ensures r.Ok? ==> WellFormed(r.value) && Format(r.value) == s
  {
    if !(Prefix <= s) then Err(InvalidPrefix)
    else
      var sections := SplitN(s, Delimiter, Sections);
      if |sections| != Sections then Err(NotEnoughSections)
      else
        ParsedFormatsBack(s, sections);
        Ok(Arn(sections[1], sections[2], sections[3], sections[4], sections[5]))
  }

  /** The six sections of a parsed string print back to it. */
  lemma ParsedFormatsBack(s: string, sections: seq<string>)
    requires Prefix <= s
    requires sections == SplitN(s, Delimiter, Sections) && |sections| == Sections
    ensures WellFormed(Arn(sections[1], sections[2], sections[3], sections[4], sections[5]))
    ensures Format(Arn(sections[1], sections[2], sections[3], sections[4], sections[5])) == s
  {
    FirstSectionIsArn(s);
    FieldsOfSections(sections);
    SplitNJoin(s, Delimiter, Sections);
  }

  /** Six sections headed by `arn` are the fields of the ARN built from them. */
  lemma FieldsOfSections(sections: seq<string>)
    requires |sections| == Sections && sections[0] == "arn"
    ensures Fields(Arn(sections[1], sections[2], sections[3], sections[4], sections[5])) == sections
  {
  }

  /** A string starting with `arn:` has `arn` as its first section. */
  lemma FirstSectionIsArn(s: string)
    requires Prefix <= s
    ensures |SplitN(s, Delimiter, Sections)| >= 2
    ensures SplitN(s, Delimiter, Sections)[0] == "arn"
  {
    assert s == "arn" + [Delimiter] + s[4..];
    IndexOfAfterPrefix("arn", Delimiter, s[4..]);
  }

  /** The textual form of an ARN starts with `arn:`. */
  lemma FormatHasPrefix(a: Arn)
    ensures Prefix <= Format(a)
  {
    var parts := Fields(a);
    assert Format(a) == parts[0] + [Delimiter] + Join(parts[1..], Delimiter);
    assert Format(a)[..4] == Prefix;
  }

  /** The textual form of a well-formed ARN splits back into its six sections. */
  lemma FormatSplitsIntoFields(a: Arn)
    requires WellFormed(a)
    ensures SplitN(Format(a), Delimiter, Sections) == Fields(a)
  {
    JoinSplitN(Fields(a), Delimiter);
  }

  /** Parsing the textual form of a well-formed ARN gives it back. */
  lemma ParseFormat(a: Arn)
    requires WellFormed(a)
    ensures Parse(Format(a)) == Ok(a)
  {
    FormatHasPrefix(a);
    FormatSplitsIntoFields(a);
  }
}

=== FILE: config_set.dfy ===
/** The configuration set a plugin declares its options in: an ordered list of
    named, typed items with a default, a required flag and an optional short
    alias. Only the operations the identity plugin uses are modelled: declaring
    a string item, setting the short alias, marking an item required, and
    looking an item up. Declaring a name twice fails; changing an undeclared
    item fails with not-found. */
module ConfigSet {
  import opened Results

  /** Item types and default values; the identity plugin declares only string items. */
  datatype ItemType = StringType

  datatype Value = StringValue(s: string)

  datatype Item = Item(
    name: string,
    itemType: ItemType,
    description: string,
    defaultValue: Value,
    required: bool,
    shorthand: Option<string>)

  datatype ConfigError = AlreadyDeclared(name: string) | NotFound(name: string)

  datatype ConfigurationSet = ConfigurationSet(items: seq<Item>)

  /** No two items share a name. */
  predicate UniqueNames(cs: ConfigurationSet)
  {
    forall i, j :: 0 <= i < j < |cs.items| ==> cs.items[i].name != cs.items[j].name
  }

  predicate Declared(cs: ConfigurationSet, name: string)
  {
    exists i :: 0 <= i < |cs.items| && cs.items[i].name == name
  }

  /** Position of the first item called `name`. */
  function Find(items: seq<Item>, name: string): (r: Option<nat>)
    ensures r.Some? ==> r.value < |items| && items[r.value].name == name
    ensures r.Some? ==> forall i :: 0 <= i < r.value ==> items[i].name != name
    ensures r.None? <==> forall i :: 0 <= i < |items| ==> items[i].name != name
  {
    if |items| == 0 then None
    else if items[0].name == name then Some(0)
    else
      match Find(items[1..], name)
      case None => None
      case Some(j) => Some(j + 1)
  }

  /** The first item with a given name is the one `Find` returns. */
  lemma FindFirst(items: seq<Item>, name: string, v: nat)
    requires v < |items| && items[v].name == name
    requires forall i :: 0 <= i < v ==> items[i].name != name
    ensures Find(items, name) == Some(v)
  {
  }

  /** Looking an item up by name. */
  function Get(cs: ConfigurationSet, name: string): (r: Result<Item, ConfigError>)
    ensures r.Ok? <==> Declared(cs, name)
    ensures r.Ok? ==> r.value.name == name && r.value in cs.items
    ensures r.Err? ==> r.error == NotFound(name)
  {
    match Find(cs.items, name)
    case None => Err(NotFound(name))
    case Some(i) => Ok(cs.items[i])
  }

  /** Declaring an item: appended, unless its name is already declared. */
  function Add(cs: ConfigurationSet, item: Item): (r: Result<ConfigurationSet, ConfigError>)
    ensures r.Err? <==> Declared(cs, item.name)
    ensures r.Err? ==> r.error == AlreadyDeclared(item.name)
    ensures r.Ok? ==> Get(r.value, item.name) == Ok(item)
    ensures r.Ok? && UniqueNames(cs) ==> UniqueNames(r.value)
  {
    match Find(cs.items, item.name)
    case Some(_) => Err(AlreadyDeclared(item.name))
    case None =>
      var items := cs.items + [item];
      FindFirst(items, item.name, |cs.items|);
      Ok(ConfigurationSet(items))
  }

  /** `cs.String(name, default, description)`: an optional string item with no
      short alias. */
  function String(cs: ConfigurationSet, name: string, defaultValue: string, description: string)
    : Result<ConfigurationSet, ConfigError>
  {
    Add(cs, Item(name, StringType, description, StringValue(defaultValue), false, None))
  }

  /** `cs.SetShort(name, alias)`. */
  function SetShort(cs: ConfigurationSet, name: string, alias: string): (r: Result<ConfigurationSet, ConfigError>)
    ensures r.Err? <==> !Declared(cs, name)
    ensures r.Err? ==> r.error == NotFound(name)
    ensures r.Ok? ==> Get(r.value, name) == Ok(Get(cs, name).value.(shorthand := Some(alias)))
  {
    match Find(cs.items, name)
    case None => Err(NotFound(name))
    case Some(i) =>
      var r := Replace(cs, i, cs.items[i].(shorthand := Some(alias)));
      assert Find(r.items, name) == Some(i);
      Ok(r)
  }

  /** `cs.SetRequired(name)`. */
  function SetRequired(cs: ConfigurationSet, name: string): (r: Result<ConfigurationSet, ConfigError>)
    ensures r.Err? <==> !Declared(cs, name)
    ensures r.Err? ==> r.error == NotFound(name)
    ensures r.Ok? ==> Get(r.value, name) == Ok(Get(cs, name).value.(required := true))
  {
    match Find(cs.items, name)
    case None => Err(NotFound(name))
    case Some(i) =>
      var r := Replace(cs, i, cs.items[i].(required := true));
      assert Find(r.items, name) == Some(i);
      Ok(r)
  }

  /** Replaces the item at `i` by one of the same name. */
  function Replace(cs: ConfigurationSet, i: nat, item: Item): (r: ConfigurationSet)
    requires i < |cs.items| && item.name == cs.items[i].name
    ensures |r.items| == |cs.items|
    ensures forall k :: 0 <= k < |r.items| ==> r.items[k].name == cs.items[k].name
  {
    ConfigurationSet(cs.items[i := item])
  }

  /** The set after a call whose error the caller discards (Go's ignored
      `error` return): the new set on success, the old one on failure. */
  function Unchecked(cs: ConfigurationSet, r: Result<ConfigurationSet, ConfigError>): ConfigurationSet
  {
    if r.Ok? then r.value else cs
  }

  /** Adding an item leaves every other name's item as it was. */
  lemma AddKeepsOthers(cs: ConfigurationSet, item: Item, name: string)
    requires Add(cs, item).Ok? && name != item.name
    ensures Get(Add(cs, item).value, name) == Get(cs, name)
  {
    var items := cs.items + [item];
    match Find(cs.items, name)
    case None =>
      assert Find(items, name).None?;
    case Some(i) =>
      FindFirst(items, name, i);
  }

  /** `Find` looks at names only. */
  lemma FindSameNames(a: seq<Item>, b: seq<Item>, name: string)
    requires |a| == |b| && forall k :: 0 <= k < |a| ==> a[k].name == b[k].name
    ensures Find(a, name) == Find(b, name)
  {
    match Find(a, name)
    case None =>
    case Some(j) => FindFirst(b, name, j);
  }

  /** Replacing one item by a same-named one changes only that name's item. */
  lemma ReplaceKeepsOthers(cs: ConfigurationSet, i: nat, item: Item, name: string)
    requires i < |cs.items| && item.name == cs.items[i].name && name != item.name
    ensures Get(Replace(cs, i, item), name) == Get(cs, name)
  {
    FindSameNames(cs.items, Replace(cs, i, item).items, name);
  }

  /** Replacing an item by a same-named one keeps the names unique. */
  lemma ReplaceKeepsUnique(cs: ConfigurationSet, i: nat, item: Item)
    requires i < |cs.items| && item.name == cs.items[i].name && UniqueNames(cs)
    ensures UniqueNames(Replace(cs, i, item))
  {
  }

  /** Setting a short alias changes no other item and keeps names unique. */
  lemma SetShortKeepsOthers(cs: ConfigurationSet, name: string, alias: string, other: string)
    requires SetShort(cs, name, alias).Ok? && other != name
    ensures Get(SetShort(cs, name, alias).value, other) == Get(cs, other)
    ensures UniqueNames(cs) ==> UniqueNames(SetShort(cs, name, alias).value)
  {
    var i := Find(cs.items, name).value;
    ReplaceKeepsOthers(cs, i, cs.items[i].(shorthand := Some(alias)), other);
    if UniqueNames(cs) {
      ReplaceKeepsUnique(cs, i, cs.items[i].(shorthand := Some(alias)));
    }
  }

  /** Marking an item required changes no other item and keeps names unique. */
  lemma SetRequiredKeepsOthers(cs: ConfigurationSet, name: string, other: string)
    requires SetRequired(cs, name).Ok? && other != name
    ensures Get(SetRequired(cs, name).value, other) == Get(cs, other)
    ensures UniqueNames(cs) ==> UniqueNames(SetRequired(cs, name).value)
  {
    var i := Find(cs.items, name).value;
    ReplaceKeepsOthers(cs, i, cs.items[i].(required := true), other);
    if UniqueNames(cs) {
      ReplaceKeepsUnique(cs, i, cs.items[i].(required := true));
    }
  }
}

=== FILE: eks_get.dfy ===
/** The EKS discovery provider's `GetCluster`: set up, translate the cluster id
    (an ARN) into an EKS cluster name, then look the cluster up.

    Setting up (`p.setup`) and the lookup (`p.getClusterConfig`) call the AWS SDK;
    here they are inputs: the setup's outcome, and the lookup as a function
    from cluster name to result. A run records which of them were called. */
module EksDiscovery {
  import opened Results
  import opened Strings
  import Arn

  /** The resource section must split into exactly this many `/`-parts. */
  const ExpectedNameParts: nat := 2
  const PathSeparator: char := '/'

  datatype NameError =
    | ParsingArn(cause: Arn.ArnError)   // the ARN parser's error, wrapped
    | UnexpectedClusterFormat           // ErrUnexpectedClusterFormat

  /** `resource` is `kind + "/" + name` with neither half containing `/`. */
  predicate SplitsAs(resource: string, kind: string, name: string)
  {
    resource == kind + [PathSeparator] + name && PathSeparator !in kind && PathSeparator !in name
  }

  /** The resource check of `getClusterName`: the part after the single `/`.
      It succeeds exactly when the resource holds one `/`; the part before it,
      the resource type, is not inspected. */
  function NameFromResource(resource: string): (r: Result<string, NameError>)
    ensures r.Ok? <==> Count(resource, PathSeparator) == 1
    ensures r.Err? ==> r.error == UnexpectedClusterFormat
    ensures r.Ok? ==> |r.value| < |resource| && SplitsAs(resource, resource[..|resource| - |r.value| - 1], r.value)
  {
    var parts := Split(resource, PathSeparator);
    if |parts| != ExpectedNameParts then Err(UnexpectedClusterFormat)
    else
      TwoPartsSplitAs(resource, parts);
      Ok(parts[1])
  }

  /** Two split parts glue back into the resource around its only `/`. */
  lemma TwoPartsSplitAs(resource: string, parts: seq<string>)
    requires parts == Split(resource, PathSeparator) && |parts| == 2
    ensures |parts[1]| < |resource|
    ensures SplitsAs(resource, resource[..|resource| - |parts[1]| - 1], parts[1])
  {
    SplitJoin(resource, PathSeparator);
    assert parts == [parts[0]] + [parts[1]];
    JoinCons(parts[0], [parts[1]], PathSeparator);
    assert resource[..|parts[0]|] == parts[0];
  }

  /** `getClusterName`: parse the cluster id as an ARN, then take the name from
      its resource section. A parse failure is returned wrapped, with no split. */
  function GetClusterName(clusterId: string): (r: Result<string, NameError>)
    ensures Arn.Parse(clusterId).Err? ==> r == Err(ParsingArn(Arn.Parse(clusterId).error))
    ensures r.Ok? <==> Arn.Parse(clusterId).Ok? && Count(Arn.Parse(clusterId).value.resource, PathSeparator) == 1
    ensures r.Err? && Arn.Parse(clusterId).Ok? ==> r.error == UnexpectedClusterFormat
    ensures r.Ok? ==>
              var resource := Arn.Parse(clusterId).value.resource;
              |r.value| < |resource| && SplitsAs(resource, resource[..|resource| - |r.value| - 1], r.value)
  {
    match Arn.Parse(clusterId)
    case Err(e) => Err(ParsingArn(e))
    case Ok(clusterArn) => NameFromResource(clusterArn.resource)
  }

  /** Round trip: a well-formed ARN whose resource is `kind/name` (no other `/`)
      translates to exactly `name`, whatever `kind` is and even when `name` is
      empty. */
  lemma ClusterNameOfArn(a: Arn.Arn, kind: string, name: string)
    requires Arn.WellFormed(a) && SplitsAs(a.resource, kind, name)
    ensures GetClusterName(Arn.Format(a)) == Ok(name)
  {
    Arn.ParseFormat(a);
    SplitTwo(kind, PathSeparator, name);
  }

  /** Only the name after the `/` matters: two ARN ids that differ in any other
      section or in the resource type translate to the same name. */
  lemma ClusterNameIgnoresResourceType(a: Arn.Arn, b: Arn.Arn, kindA: string, kindB: string, name: string)
    requires Arn.WellFormed(a) && SplitsAs(a.resource, kindA, name)
    requires Arn.WellFormed(b) && SplitsAs(b.resource, kindB, name)
    ensures GetClusterName(Arn.Format(a)) == GetClusterName(Arn.Format(b))
  {
    ClusterNameOfArn(a, kindA, name);
    ClusterNameOfArn(b, kindB, name);
  }

  /** A resource with no `/` (one part, the empty resource included) is
      rejected after parsing. */
  lemma OnePartResourceRejected(a: Arn.Arn)
    requires Arn.WellFormed(a) && PathSeparator !in a.resource
    ensures GetClusterName(Arn.Format(a)) == Err(UnexpectedClusterFormat)
  {
    Arn.ParseFormat(a);
  }

  /** A resource with a second `/` (three or more parts) is rejected too: the
      name after the first `/` is not taken as a best effort. */
  lemma ThreePartResourceRejected(a: Arn.Arn, kind: string, name: string, extra: string)
    requires Arn.WellFormed(a) && a.resource == kind + [PathSeparator] + name + [PathSeparator] + extra
    ensures GetClusterName(Arn.Format(a)) == Err(UnexpectedClusterFormat)
  {
    Arn.ParseFormat(a);
    CountAppend(kind + [PathSeparator] + name + [PathSeparator], extra, PathSeparator);
    CountAppend(kind + [PathSeparator] + name, [PathSeparator], PathSeparator);
    CountAppend(kind + [PathSeparator], name, PathSeparator);
    CountAppend(kind, [PathSeparator], PathSeparator);
  }

  /** Oracle calls `GetCluster` makes, in order. */
  datatype EksCall =
    | SetupCall                              // p.setup(configSet, identity)
    | DescribeClusterCall(clusterName: string) // p.getClusterConfig(clusterName)

  datatype DiscoveryError =
    | SettingUp(cause: Cause)                                 // setup failed
    | GettingClusterName(clusterId: string, nameError: NameError) // translating the id failed
    | GettingClusterConfig(clusterId: string, cause: Cause)   // the lookup failed

  datatype GetClusterOutput<C> = GetClusterOutput(cluster: C)

  /** What `GetCluster` returned, and which oracles it called on the way. */
  datatype GetClusterRun<C> = GetClusterRun(result: Result<GetClusterOutput<C>, DiscoveryError>, calls: seq<EksCall>)

  /** `GetCluster`: setup, name translation, lookup, stopping at the first
      failure and wrapping its error with the step and the cluster id. */
  function GetCluster<C>(setup: Outcome<Cause>, clusterId: string, getClusterConfig: string -> Result<C, Cause>)
    : (run: GetClusterRun<C>)
    ensures |run.calls| >= 1 && run.calls[0] == SetupCall
    ensures setup.Fail? ==> run.calls == [SetupCall] && run.result == Err(SettingUp(setup.error))
    ensures setup.Pass? && GetClusterName(clusterId).Err? ==>
              run.calls == [SetupCall] && run.result == Err(GettingClusterName(clusterId, GetClusterName(clusterId).error))
    ensures |run.calls| == 2 <==> setup.Pass? && GetClusterName(clusterId).Ok?
    ensures |run.calls| == 2 ==> run.calls[1] == DescribeClusterCall(GetClusterName(clusterId).value)
    ensures run.result.Ok? <==> |run.calls| == 2 && getClusterConfig(GetClusterName(clusterId).value).Ok?
    ensures run.result.Ok? ==> run.result.value.cluster == getClusterConfig(GetClusterName(clusterId).value).value
    ensures |run.calls| == 2 && getClusterConfig(GetClusterName(clusterId).value).Err? ==>
              run.result == Err(GettingClusterConfig(clusterId, getClusterConfig(GetClusterName(clusterId).value).error))
  {
    match setup
    case Fail(e) => GetClusterRun(Err(SettingUp(e)), [SetupCall])
    case Pass =>
      match GetClusterName(clusterId)
      case Err(e) => GetClusterRun(Err(GettingClusterName(clusterId, e)), [SetupCall])
      case Ok(clusterName) =>
        var calls := [SetupCall, DescribeClusterCall(clusterName)];
        match getClusterConfig(clusterName)
        case Err(e) => GetClusterRun(Err(GettingClusterConfig(clusterId, e)), calls)
        case Ok(cluster) => GetClusterRun(Ok(GetClusterOutput(cluster)), calls)
  }

  /** The lookup is consulted only for the translated name, and only after a
      successful setup: two lookups that agree on that name give the same run,
      and when setup or translation fails any two lookups do. */
  lemma GetClusterConsultsOnlyTranslatedName<C>(setup: Outcome<Cause>, clusterId: string,
                                                 lookupA: string -> Result<C, Cause>, lookupB: string -> Result<C, Cause>)
    requires setup.Pass? && GetClusterName(clusterId).Ok? ==> lookupA(GetClusterName(clusterId).value) == lookupB(GetClusterName(clusterId).value)
    ensures GetCluster(setup, clusterId, lookupA) == GetCluster(setup, clusterId, lookupB)
  {
  }

  /** End to end: after a successful setup, a well-formed cluster ARN is looked
      up under its name, and the cluster returned is the lookup's, unchanged. */
  lemma GetClusterOfArn<C>(a: Arn.Arn, kind: string, name: string, getClusterConfig: string -> Result<C, Cause>)
    requires Arn.WellFormed(a) && SplitsAs(a.resource, kind, name)
    ensures GetCluster(Pass, Arn.Format(a), getClusterConfig).calls == [SetupCall, DescribeClusterCall(name)]
    ensures getClusterConfig(name).Ok? ==>
              GetCluster(Pass, Arn.Format(a), getClusterConfig).result == Ok(GetClusterOutput(getClusterConfig(name).value))
    ensures getClusterConfig(name).Err? ==>
              GetCluster(Pass, Arn.Format(a), getClusterConfig).result
              == Err(GettingClusterConfig(Arn.Format(a), getClusterConfig(name).error))
  {
    ClusterNameOfArn(a, kind, name);
  }
}

=== FILE: results.dfy ===
/** Success/failure values used in place of Go's `(value, error)` returns. */
module Results {

  /** A wrapped error message coming from code outside this model
      (the AWS and Azure SDKs, the `az` command, the configuration package). */
  datatype Cause = Cause(message: string)

  /** Go's `*T` that may be nil. */
  datatype Option<+T> = None | Some(value: T)

  /** A Go `(T, error)` pair: exactly one of the two is meaningful. */
  datatype Result<+T, +E> = Ok(value: T) | Err(error: E)

  /** A Go `error` return with no value beside it: nil or an error. */
  datatype Outcome<+E> = Pass | Fail(error: E)
}

=== FILE: strings.dfy ===
/** Go's `strings.Split`, `strings.SplitN` and `strings.Join` for a one-character
    separator, written the way Go's `genSplit` computes them: cut at the first
    separator, keep the rest for the next part. */
module Strings {

  /** Number of occurrences of `c` in `s` (Go's `strings.Count`). */
  function Count(s: string, c: char): (n: nat)
    ensures n <= |s|
    ensures n == 0 <==> c !in s
  {
    if |s| == 0 then 0 else (if s[0] == c then 1 else 0) + Count(s[1..], c)
  }

  /** Position of the first `c` in `s` (Go's `strings.Index`, found case only). */
  function IndexOf(s: string, c: char): (i: nat)
    requires c in s
    ensures i < |s| && s[i] == c
    ensures c !in s[..i]
  {
    if s[0] == c then 0
    else
      assert s == [s[0]] + s[1..];
      var j := IndexOf(s[1..], c);
      assert s[..j + 1] == [s[0]] + s[1..][..j];
      j + 1
  }

  /** Go's `strings.Split(s, sep)`: never empty, one part more than there are
      separators, and no part contains the separator. */
  function Split(s: string, sep: char): (parts: seq<string>)
    ensures |parts| == Count(s, sep) + 1
    ensures forall k :: 0 <= k < |parts| ==> sep !in parts[k]
    decreases |s|
  {
    if sep !in s then [s]
    else
      var i := IndexOf(s, sep);
      CountSplitsAt(s, sep, i);
      [s[..i]] + Split(s[i + 1..], sep)
  }

  /** Go's `strings.SplitN(s, sep, n)` for `n >= 0`: at most `n` parts, the last
      one being the unsplit remainder. */
  function SplitN(s: string, sep: char, n: nat): (parts: seq<string>)
    ensures |parts| == if n <= Count(s, sep) + 1 then n else Count(s, sep) + 1
    ensures forall k :: 0 <= k < |parts| - 1 ==> sep !in parts[k]
    decreases n
  {
    if n == 0 then []
    else if n == 1 || sep !in s then [s]
    else
      var i := IndexOf(s, sep);
      CountSplitsAt(s, sep, i);
      [s[..i]] + SplitN(s[i + 1..], sep, n - 1)
  }

  /** Go's `strings.Join(parts, string(sep))`. */
  function Join(parts: seq<string>, sep: char): string
  {
    if |parts| == 0 then ""
    else if |parts| == 1 then parts[0]
    else parts[0] + [sep] + Join(parts[1..], sep)
  }

  /** Counting distributes over concatenation. */
  lemma {:induction false} CountAppend(a: string, b: string, c: char)
    ensures Count(a + b, c) == Count(a, c) + Count(b, c)
    decreases |a|
  {
    if |a| == 0 {
      assert a + b == b;
    } else {
      assert (a + b)[1..] == a[1..] + b;
      CountAppend(a[1..], b, c);
    }
  }

  /** Cutting `s` at its first separator accounts for exactly one occurrence. */
  lemma CountSplitsAt(s: string, sep: char, i: nat)
    requires sep in s && i == IndexOf(s, sep)
    ensures Count(s, sep) == Count(s[i + 1..], sep) + 1
  {
    assert s == s[..i] + ([sep] + s[i + 1..]);
    CountAppend(s[..i], [sep] + s[i + 1..], sep);
    CountAppend([sep], s[i + 1..], sep);
  }

  /** The first separator of `p + [sep] + r` is the one right after `p`
      when `p` has none. */
  lemma IndexOfAfterPrefix(p: string, sep: char, r: string)
    requires sep !in p
    ensures sep in p + [sep] + r
    ensures IndexOf(p + [sep] + r, sep) == |p|
  {
    var s := p + [sep] + r;
    assert s[..|p|] == p;
    assert s[|p|] == sep;
  }

  /** Cutting `p + [sep] + r` at its first separator gives `p` and `r`. */
  lemma CutAtFirst(p: string, sep: char, r: string)
    requires sep !in p
    ensures sep in p + [sep] + r
    ensures var s := p + [sep] + r; var i := IndexOf(s, sep); s[..i] == p && s[i + 1..] == r
  {
    IndexOfAfterPrefix(p, sep, r);
    var s := p + [sep] + r;
    assert s[..|p|] == p;
    assert s[|p| + 1..] == r;
  }

  /** Split of `p + [sep] + r` with separator-free `p`: `p`, then the parts of `r`. */
  lemma SplitCons(p: string, sep: char, r: string)
    requires sep !in p
    ensures Split(p + [sep] + r, sep) == [p] + Split(r, sep)
  {
    CutAtFirst(p, sep, r);
  }

  /** The same for `SplitN` with room for at least two parts. */
  lemma SplitNCons(p: string, sep: char, r: string, n: nat)
    requires sep !in p && n >= 2
    ensures SplitN(p + [sep] + r, sep, n) == [p] + SplitN(r, sep, n - 1)
  {
    CutAtFirst(p, sep, r);
  }

  /** Joining a part in front of at least one more part puts a separator between. */
  lemma JoinCons(p: string, rest: seq<string>, sep: char)
    requires |rest| >= 1
    ensures Join([p] + rest, sep) == p + [sep] + Join(rest, sep)
  {
    assert ([p] + rest)[1..] == rest;
  }

  /** Joining the parts of a split gives back the original string. */
  lemma {:induction false} SplitJoin(s: string, sep: char)
    ensures Join(Split(s, sep), sep) == s
    decreases |s|
  {
    if sep in s {
      var i := IndexOf(s, sep);
      var rest := Split(s[i + 1..], sep);
      SplitJoin(s[i + 1..], sep);
      JoinCons(s[..i], rest, sep);
      assert s == s[..i] + [sep] + s[i + 1..];
    }
  }

  /** Splitting a join of separator-free parts gives back the parts. */
  lemma {:induction false} JoinSplit(parts: seq<string>, sep: char)
    requires |parts| >= 1
    requires forall k :: 0 <= k < |parts| ==> sep !in parts[k]
    ensures Split(Join(parts, sep), sep) == parts
    decreases |parts|
  {
    if |parts| > 1 {
      var rest := Join(parts[1..], sep);
      var s := Join(parts, sep);
      assert s == parts[0] + [sep] + rest;
      SplitCons(parts[0], sep, rest);
      JoinSplit(parts[1..], sep);
      assert parts == [parts[0]] + parts[1..];
    }
  }

  /** `SplitN` with `n` parts undoes a join of `n` parts of which all but the
      last are separator-free; the last part may contain anything. */
  lemma {:induction false} JoinSplitN(parts: seq<string>, sep: char)
    requires |parts| >= 1
    requires forall k :: 0 <= k < |parts| - 1 ==> sep !in parts[k]
    ensures SplitN(Join(parts, sep), sep, |parts|) == parts
    decreases |parts|
  {
    if |parts| > 1 {
      var rest := Join(parts[1..], sep);
      var s := Join(parts, sep);
      assert s == parts[0] + [sep] + rest;
      SplitNCons(parts[0], sep, rest, |parts|);
      JoinSplitN(parts[1..], sep);
      assert parts == [parts[0]] + parts[1..];
    }
  }

  /** Joining the parts of a `SplitN` (with `n >= 1`) gives back the original. */
  lemma {:induction false} SplitNJoin(s: string, sep: char, n: nat)
    requires n >= 1
    ensures Join(SplitN(s, sep, n), sep) == s
    decreases n
  {
    if n > 1 && sep in s {
      var i := IndexOf(s, sep);
      var rest := SplitN(s[i + 1..], sep, n - 1);
      SplitNJoin(s[i + 1..], sep, n - 1);
      JoinCons(s[..i], rest, sep);
      assert s == s[..i] + [sep] + s[i + 1..];
    }
  }

  /** `a + [sep] + b` with separator-free `a` and `b` splits into exactly
      `[a, b]`. */
  lemma SplitTwo(a: string, sep: char, b: string)
    requires sep !in a && sep !in b
    ensures Split(a + [sep] + b, sep) == [a, b]
  {
    assert Join([a, b], sep) == a + [sep] + b;
    JoinSplit([a, b], sep);
  }
}
